=== FILE: README.md ===
# Workday clock

A Dafny model of the workday clock in the browser client of a time-tracking
application (`frontend/static/js/app.js`). A signed-in employee starts the
workday, takes and ends breaks, and ends the day. Every press appends an event
to the day's log ("Jornada Iniciada", "Pausa Iniciada", "Pausa Finalizada",
"Jornada Finalizada", "Jornada Reiniciada") and hands the day's record to the
backend. When a user logs in, the status is rebuilt from the stored record for
today.
The records views then total the days of a week or a month, the administrator
lists everyone's days with an optional DNI filter, and the CSV export joins
each day's events into one cell.

Modules (one file each):

- `JsValues` (`js_values.dfy`): nullable values and JavaScript truthiness. A
  timestamp of `0` is "unset", as in `if (workStartTime)`. It also has
  `x || null` and `x || 0`.
- `Text` (`text.dfy`): splitting at a character and joining.
- `TimeFormat` (`time_format.dfy`): `formatTime` and its inverse `ParseClock`.
- `Journal` (`journal.dfy`): the status, log entry, workday record and save body,
  plus the two effective-work clamps.
- `StatusRebuild` (`status_rebuild.dfy`): how `loadCurrentWorkday` derives the
  status and the break start from a stored day.
- `Clock` (`clock.dfy`): the page's variables as one `Session` value and every
  handler as a function of it. The current time is a parameter. This module
  also holds the coherence invariant and the lemmas about runs of button presses.
- `Tracker` (`tracker.dfy`): the class `WorkdayClock`. Its fields are the
  module variables `status`, `workStartTime`, `workEndTime`, `breakStartTime`,
  `totalBreakDuration`, `currentDayLog`, `currentWorkdayData` and the signed-in
  user. Each handler is a method that updates them in place and is proved equal
  to the `Clock` transition.
- `Reports` (`reports.dfy`): the daily view, the weekly and monthly totals loop,
  the administrator's filtered listing and the CSV events cell.

The central result is `Clock.ReachableIsCoherent`. A run is any sequence of
user actions at strictly increasing times. The actions are logging in, the
five clock buttons and logging out. The page lets each action happen only where
it is visible:

- the login form only while nobody is signed in;
- the clock's buttons and logout only while a user is signed in
  (app.js:387-388, 840-841).

A login may bring back a stored day. That day must be sound (`Clock.SoundRecord`),
and every record a coherent state saves is sound (`Clock.SaveIsSound`). In every
state such a run reaches from the initial page, three things hold:

- Rebuilding from the variables gives the live status, and the live break
  start when on a break.
- A started day has a start time.
- The break total equals the sum of the break lengths in the log.

Along every run, whoever is signed in has a record of the day (`Clock.RunKeepsRecord`), so the start button of every reachable signed-in idle page saves (`Clock.SignedInStartSaves`). Such pages exist (`Clock.LoginThenStartSaves`).
It follows that:

- The button table enables exactly the buttons whose handler would act
  (`ButtonsMatchGuards`).
- The break total is never negative (`BreakTotalMatchesLog`).
- Reloading the record a handler saved restores the state that handler left
  (`ReloadAfterStep`).
- Signing out and in again, when the store returns the day last saved,
  restores the clock (`LogoutLogInRestores`).

The timeline must be strictly increasing. `SameMillisecondBreakReloadsAsOpen`
is the counterexample: a break that starts and ends in the same millisecond
leaves the clock `working`, but the log rebuilds as `on_break`. The reason is
that the rebuild compares times (`f.time > e.time`, app.js:340), not positions
in the log.

A confirmed reset does not leave an empty log. After clearing every variable,
the handler logs "Jornada Reiniciada" into the new record
(app.js:519), so the log holds that one entry. `Clock.OnReset` states this.

## Model

| member | source | states |
|---|---|---|
| `TimeFormat.Decimal` | frontend/static/js/app.js:97-99 | a number's text is its decimal digits, with no leading zero, and reads back as the number |
| `TimeFormat.Pad` | frontend/static/js/app.js:97-98 | a field has at least two digits, exactly two below 100, and reads back as its value |
| `TimeFormat.FormatTime` | frontend/static/js/app.js:90-100 | a missing, not-a-number or negative count gives `00:00:00`, and so does anything under one second |
| `TimeFormat.FormatTimeRoundTrip` | frontend/static/js/app.js:90-100 | for `ms >= 0` the text parses as `H…H:MM:SS`: at least two hour digits, two-digit minutes and seconds below 60, reading back as `ms / 1000` (floor) |
| `TimeFormat.FormatTimeClamped` | frontend/static/js/app.js:91 | the clamped output reads back as zero seconds |
| `TimeFormat.FormatTimeReading` | frontend/static/js/app.js:90-100 | any integer count reads back as zero when negative and as its whole seconds otherwise |
| `TimeFormat.FormatTimeHasNoSemicolon` | frontend/static/js/app.js:97-99 | no formatted time contains `;`, so it can sit inside the `;`-separated events cell of the CSV |
| `Journal.LiveWork` | frontend/static/js/app.js:275-280 | effective work is 0 with no start; otherwise it is `max(0, (end or now) - start - breaks)`, so never negative |
| `Journal.RecordWork` | frontend/static/js/app.js:599-604 | a stored day's work counts only when start and end are both set; it is `max(0, end - start - (breaks or 0))`, the same clamp used at app.js:671-675, 746-750, 797-801 and 931-935 |
| `Journal.FinishedDayAgrees` | frontend/static/js/app.js:275-280 | once the day has ended, the clock page and the records views show the same effective work, whatever the current time |
| `StatusRebuild.LastBreakStart` | frontend/static/js/app.js:341 | gives the time of the last "Pausa Iniciada" (none exactly when the log has none) |
| `StatusRebuild.Rebuild` | frontend/static/js/app.js:338-350 | a set end time gives finished; else a break start with no strictly later break end gives on_break, from the last break start; else a set start time gives working; else idle |
| `Clock.AddLogEntry` | frontend/static/js/app.js:191-212 | appends exactly one entry at the end, keeps the earlier ones, and changes no other variable; when there is a record, copies the log and user into it, "Jornada Iniciada" sets its start and "Jornada Finalizada" its end; the save body matches the new state |
| `Clock.OnStart` | frontend/static/js/app.js:424-431 | only idle moves, to working, with the start time `now` and one log entry. The user is kept. The record gets the user, the log and the start time. The day is saved exactly when there is a record and a signed-in user, and the body matches the new state. Any other status changes nothing and saves nothing |
| `Clock.OnStartBreak` | frontend/static/js/app.js:433-440 | only working moves, to on_break, with the break start `now` and one log entry. The user is kept. The record gets the user and the log. The day is saved exactly when there is a record and a signed-in user. Otherwise nothing changes |
| `Clock.OnEndBreak` | frontend/static/js/app.js:442-451 | only on_break with a set break start moves, to working. It adds exactly `now - breakStart` to the total, so the total never decreases when `now >= breakStart`. It clears the break start and logs the length. The user is kept, and the record gets the user and the log. The day is saved exactly when there is a record and a signed-in user. Otherwise nothing changes |
| `Clock.OnEnd` | frontend/static/js/app.js:453-461 | only working moves, to finished, with the end time `now`. The user is kept. The record gets the user, the log and the end time. The day is saved exactly when there is a record and a signed-in user. Otherwise nothing changes |
| `Clock.OnReset` | frontend/static/js/app.js:463-525 | refused when idle without a start time, when not confirmed, or when the deletion fails; otherwise everything returns to its initial value, a fresh record for today is created, and "Jornada Reiniciada" becomes the only log entry |
| `Clock.Logout` | frontend/static/js/app.js:381-419 | status idle, no start, end or break start, break total 0, empty log, no record and no user |
| `Clock.Load` | frontend/static/js/app.js:308-364 | with a stored day, restores the times (falsy ones become null), the break total (null becomes 0) and the log, and sets the rebuilt status; sets the break start only on a break; with no day, only a fresh record and idle are set |
| `Clock.LogIn` | frontend/static/js/app.js:834-850 | a refused login changes nothing. A granted one remembers the user and role. With a stored day it takes that record. Times come from the day with falsy ones as null, the break total defaults to 0, and the log comes from the day. The status is the rebuilt one, and so is the break start when on a break. Without a stored day, only a fresh record for today and idle are set |
| `Clock.ButtonsFor` | frontend/static/js/app.js:230-267 | the button table: start exactly when idle, start-break and end exactly while working, end-break exactly on a break, and reset exactly when not idle |
| `Clock.Ui` | frontend/static/js/app.js:225-282 | shows the button table for the status; the work and break texts read back as the clamped effective work and the break total in whole seconds |
| `Clock.StartKeepsCoherent` | frontend/static/js/app.js:424-431 | start, pressed later than everything logged, keeps the rebuilt status equal to the live one |
| `Clock.StartBreakKeepsCoherent` | frontend/static/js/app.js:433-440 | the same for start-break: the new break is the open one and the last break start |
| `Clock.EndBreakKeepsCoherent` | frontend/static/js/app.js:442-451 | the same for end-break: the break end closes every break, and the total still equals the logged lengths |
| `Clock.EndKeepsCoherent` | frontend/static/js/app.js:453-461 | the same for end |
| `Clock.ResetKeepsCoherent` | frontend/static/js/app.js:483-519 | the same for a confirmed reset |
| `Clock.SaveIsSound` | frontend/static/js/app.js:287-304 | whatever a coherent state saves is a sound record for reloading, whoever it is stored for |
| `Clock.LoadKeepsCoherent` | frontend/static/js/app.js:308-350 | loading a sound stored day gives a coherent state, whatever the state before |
| `Clock.LogInKeepsCoherent` | frontend/static/js/app.js:834-850 | a login on the blank signed-out page, with no stored day or a sound one, gives a coherent state |
| `Clock.StepKeepsBlank` | frontend/static/js/app.js:381-400 | only a login signs a user in and only logout signs them out, so nobody signed in always means the initial state |
| `Clock.StepKeepsCoherent` | frontend/static/js/app.js:424-461 | every action keeps coherence and a blank signed-out page. It logs nothing later than its own time, and it saves a body that mirrors the state it leaves |
| `Clock.RunKeepsCoherent` | frontend/static/js/app.js:338-350 | any run of actions at strictly increasing times with sound stored days keeps coherence and a blank signed-out page |
| `Clock.ReachableIsCoherent` | frontend/static/js/app.js:56-62 | every state the page reaches from its initial variables is coherent, through logins, the buttons and logouts. Nobody signed in means the initial state |
| `Clock.StepKeepsRecord` | frontend/static/js/app.js:308-364 | no action leaves a signed-in user without a record of the day, because a login always loads or creates one |
| `Clock.RunKeepsRecord` | frontend/static/js/app.js:834-850 | along any run from a state where the signed-in user has a record, the signed-in user still has one |
| `Clock.SignedInStartSaves` | frontend/static/js/app.js:205-211 | in every reachable state with a non-empty DNI signed in and the day idle, the start button saves the day, at any time |
| `Clock.LoginThenStartSaves` | frontend/static/js/app.js:834-850 | one login reaches a signed-in idle page whose start button saves, so such states exist |
| `Clock.ButtonsMatchGuards` | frontend/static/js/app.js:230-267 | in a coherent state, each button is enabled exactly when its handler's guard passes (app.js:425-465) |
| `Clock.BreakTotalMatchesLog` | frontend/static/js/app.js:442-451 | in a coherent state, the break total is the sum of the logged break lengths and is never negative |
| `Clock.ReloadRestores` | frontend/static/js/app.js:287-304 | loading back what a coherent state saves restores its status, times, break total and log, and on a break its break start |
| `Clock.LogoutLogInRestores` | frontend/static/js/app.js:381-400 | signing out and in again, when the store returns the day last saved, restores the status, times, break total, log and, on a break, the break start |
| `Clock.ReloadAfterStep` | frontend/static/js/app.js:308-350 | after any handler, the record it saved reloads with the status, times, break total and log the handler left, and on a break its break start |
| `Clock.SameMillisecondBreakReloadsAsOpen` | frontend/static/js/app.js:340 | a break started and ended in the same millisecond leaves the clock working, but the log rebuilds as on a break |
| `Tracker.WorkdayClock.constructor` | frontend/static/js/app.js:56-67 | the initial values: idle, nothing set, break total 0, empty log, no record and nobody signed in |
| `Tracker.WorkdayClock.SaveCurrentWorkdayData` | frontend/static/js/app.js:287-304 | posts only with a record and a signed-in user; the body carries the record's date and the current times, break total and log, and is the `Clock.SaveRequest` of the current state |
| `Tracker.WorkdayClock.AddLogEntry` | frontend/static/js/app.js:191-212 | the in-place push and record update equal `Clock.AddLogEntry` |
| `Tracker.WorkdayClock.Start` | frontend/static/js/app.js:424-431 | the in-place handler equals `Clock.OnStart`; any status other than idle leaves every field unchanged |
| `Tracker.WorkdayClock.StartBreak` | frontend/static/js/app.js:433-440 | equals `Clock.OnStartBreak`; any status other than working leaves every field unchanged |
| `Tracker.WorkdayClock.EndBreak` | frontend/static/js/app.js:442-451 | equals `Clock.OnEndBreak`; adds exactly `now - breakStartTime` to the total and clears the break start |
| `Tracker.WorkdayClock.End` | frontend/static/js/app.js:453-461 | equals `Clock.OnEnd`; any status other than working leaves every field unchanged |
| `Tracker.WorkdayClock.Reset` | frontend/static/js/app.js:463-525 | equals `Clock.OnReset` |
| `Tracker.WorkdayClock.Logout` | frontend/static/js/app.js:381-419 | every field is back to its initial value |
| `Tracker.WorkdayClock.LoadCurrentWorkday` | frontend/static/js/app.js:308-364 | the in-place load and status rebuild equal `Clock.Load` |
| `Tracker.WorkdayClock.LogIn` | frontend/static/js/app.js:830-856 | equals `Clock.LogIn` |
| `Reports.DailyRecords` | frontend/static/js/app.js:562-619 | with no date, prompts for one; a returned day gives one row per event in order, plus its clamped work and break total |
| `Reports.SumWork` | frontend/static/js/app.js:665-678 | the period's work total is never negative and is at least the last day's work |
| `Reports.SummarizePeriod` | frontend/static/js/app.js:665-678 | the weekly loop, and the identical monthly one (app.js:740-753): a failed load and an empty period are reported; otherwise one row per day in order, and the totals equal the sums of per-day clamped work and breaks |
| `Reports.SumsAppend` | frontend/static/js/app.js:740-753 | totals over two stretches of days add up |
| `Reports.DayWithinTotal` | frontend/static/js/app.js:671-678 | no day's work exceeds the period's total |
| `Reports.Trim` | frontend/static/js/app.js:890 | the filter text without white space at either end; it is empty exactly when the input is all white space |
| `Reports.FilterByDni` | frontend/static/js/app.js:898-899 | keeps exactly the days whose user DNI equals the filter |
| `Reports.FilterByDniAppend` | frontend/static/js/app.js:899 | filtering keeps the order (it distributes over concatenation) |
| `Reports.AllWorkdays` | frontend/static/js/app.js:888-950 | a failed load is reported. A non-blank trimmed filter with no matches gives "no days for this DNI". An empty unfiltered list gives "no days". Otherwise the table has one line per filtered day, in order (every day without a filter). The table is non-empty, work is never negative, and every line is of the filtered user |
| `Reports.AdminTableListsSelected` | frontend/static/js/app.js:898-944 | every selected day of the answer (the filtered user's, or all of them) has its line in the table, and every line comes from a selected day |
| `Reports.CsvEvent` | frontend/static/js/app.js:805-808 | one event's text starts with the event name and ends with its time of day. It contains no `;` when neither of those does, because the formatted duration never does |
| `Reports.CsvEvents` | frontend/static/js/app.js:805-809 | the events mapped and joined with `"; "`: empty without events (including a missing list), and the one event's text for a single event |
| `Reports.CsvEventsSplitBack` | frontend/static/js/app.js:805-809 | when no event name or time of day contains `;`, the events cell splits at `;` back into the events' texts. There is one piece per event: the first as is, each later one after the space of its `"; "` separator |

## Left out

- DOM updates, HTML and CSV templating other than the events cell, modals,
  tab switching and the welcome message: these are display only.
- `apiGet`, `apiPost` and every `fetch`: these are I/O. A save is the `Payload`
  a handler returns. A backend answer is a parameter: `None` stands for a failed
  or empty answer. Whether the delete request of a reset succeeded is a boolean
  parameter.
- `backend/app.py` and `backend/database.py` are not part of this model. The
  reload lemmas assume the store returns a saved body unchanged (`Journal.Stored`).
- `Date.now()` is the `now` parameter. In `endBreak` the source reads the clock
  twice, for the length and for the log time; the model uses one reading.
- `toLocaleTimeString`, `toISOString`, the week and month date filters and
  `getTodayDateString` depend on locale and time zone. The date of today is a
  parameter. The CSV time of day is a function parameter. The weekly and
  monthly totals take the already filtered days.
- The timers (`setInterval`, `clearInterval`, the one-second tick) are left out.
- The interleaving of handlers across `await`: each handler is one atomic step.
- JavaScript numbers are IEEE doubles. The model uses unbounded integers, so it
  ignores fractional milliseconds, `NaN` arithmetic and precision loss beyond
  2^53.
- `currentDayLog` and the record's `events` are one shared array in the source.
  The model keeps them as values and copies the log into the record on every
  `addLogEntry`, which is the only point where the difference could be seen.
- `Reports.Trim`: covers JavaScript's white space and line terminators as
  listed by the language standard; other characters are not trimmed.
- Registration of users (app.js:860-886) is outside the clock.
- A login's stored day is taken to be a sound record (`Clock.SoundRecord`),
  as every save of the clock is. Days written by other means are not covered by
  the coherence result.

=== FILE: clock.dfy ===
/**
 * The workday clock as values: the module variables of the page as one
 * `Session`, each button handler as one atomic transition taking the current
 * time as a parameter, and the properties that relate them.
 */
module Clock {
  import opened JsValues
  import opened Journal
  import opened StatusRebuild
  import opened TimeFormat

  /** The page's state variables, including the signed-in user. */
  datatype Session = Session(
    status: Status,
    workStartTime: Option<int>,
    workEndTime: Option<int>,
    breakStartTime: Option<int>,
    totalBreakDuration: int,
    log: seq<LogEntry>,
    workdayData: Option<WorkdayRecord>,
    userDni: Option<string>,
    userRole: Option<string>)

  /** What a handler leaves behind: the new session and the record it saved, if any. */
  datatype Outcome = Outcome(after: Session, sent: Option<Payload>)

  /** The state when the page loads, and after logging out. */
  function Initial(): Session {
    Session(Idle, None, None, None, 0, [], None, None, None)
  }

  /** The empty record of a day with nothing logged yet. */
  function FreshRecord(today: string): WorkdayRecord {
    WorkdayRecord(today, None, None, None, Some(0), Some([]))
  }

  /** `saveCurrentWorkdayData`: the body it posts, when there is a record and a signed-in user. */
  function SaveRequest(c: Session): Option<Payload> {
    if c.workdayData.Some? && TruthyText(c.userDni) then
      Some(Payload(c.workdayData.value.date, c.workStartTime, c.workEndTime, c.totalBreakDuration, c.log))
    else None
  }

  /**
   * `addLogEntry(event, time, duration)`: appends one entry to the log, copies
   * the log, the user and (for the start and end events) the time into the
   * day's record, then saves.
   */
  function AddLogEntry(c: Session, event: string, time: int, duration: Option<int>): (o: Outcome)
    ensures |o.after.log| == |c.log| + 1 && o.after.log[..|c.log|] == c.log
    ensures o.after.log[|c.log|] == LogEntry(event, time, duration)
    ensures o.after == c.(log := o.after.log, workdayData := o.after.workdayData)
    ensures o.after.workdayData.Some? <==> c.workdayData.Some?
    ensures c.workdayData.Some? ==>
      var w, w' := c.workdayData.value, o.after.workdayData.value;
      && w'.date == w.date && w'.userDni == c.userDni && w'.events == Some(o.after.log)
      && w'.totalBreakDuration == w.totalBreakDuration
      && w'.startTime == (if event == WorkStarted then Some(time) else w.startTime)
      && w'.endTime == (if event == WorkEnded then Some(time) else w.endTime)
    ensures o.sent == SaveRequest(o.after)
  {
    var log := c.log + [LogEntry(event, time, duration)];
    assert log[..|c.log|] == c.log;
    match c.workdayData
    case None => Outcome(c.(log := log), None)
    case Some(w) =>
      var w1 := w.(userDni := c.userDni, events := Some(log));
      var w2 := if event == WorkStarted then w1.(startTime := Some(time)) else w1;
      var w3 := if event == WorkEnded then w2.(endTime := Some(time)) else w2;
      var after := c.(log := log, workdayData := Some(w3));
      Outcome(after, SaveRequest(after))
  }

  // The guards of the five button handlers.

  predicate CanStart(c: Session) {
    c.status == Idle
  }

  predicate CanStartBreak(c: Session) {
    c.status == Working
  }

  predicate CanEndBreak(c: Session) {
    c.status == OnBreak && Truthy(c.breakStartTime)
  }

  predicate CanEnd(c: Session) {
    c.status == Working
  }

  /** Reset is refused only when idle with no start time. */
  predicate CanReset(c: Session) {
    !(c.status == Idle && !Truthy(c.workStartTime))
  }

  /** The start button: only `idle` moves, to `working`, stamping the start time. */
  function OnStart(c: Session, now: int): (o: Outcome)
    ensures !CanStart(c) ==> o == Outcome(c, None)
    ensures CanStart(c) ==>
      && o.after.status == Working && o.after.workStartTime == Some(now)
      && o.after.log == c.log + [LogEntry(WorkStarted, now, None)]
      && o.after.workEndTime == c.workEndTime && o.after.breakStartTime == c.breakStartTime
      && o.after.totalBreakDuration == c.totalBreakDuration
      && o.after.userDni == c.userDni && o.after.userRole == c.userRole
      && (o.after.workdayData.Some? <==> c.workdayData.Some?)
      && (c.workdayData.Some? ==>
            o.after.workdayData.value == c.workdayData.value.(userDni := c.userDni, events := Some(o.after.log), startTime := Some(now)))
      && (o.sent.Some? <==> c.workdayData.Some? && TruthyText(c.userDni))
      && o.sent == SaveRequest(o.after)
  {
    if !CanStart(c) then Outcome(c, None)
    else
      var o := AddLogEntry(c.(workStartTime := Some(now)), WorkStarted, now, None);
      Outcome(o.after.(status := Working), o.sent)
  }

  /** The start-break button: only `working` moves, to `on_break`, stamping the break start. */
  function OnStartBreak(c: Session, now: int): (o: Outcome)
    ensures !CanStartBreak(c) ==> o == Outcome(c, None)
    ensures CanStartBreak(c) ==>
      && o.after.status == OnBreak && o.after.breakStartTime == Some(now)
      && o.after.log == c.log + [LogEntry(BreakStarted, now, None)]
      && o.after.workStartTime == c.workStartTime && o.after.workEndTime == c.workEndTime
      && o.after.totalBreakDuration == c.totalBreakDuration
      && o.after.userDni == c.userDni && o.after.userRole == c.userRole
      && (o.after.workdayData.Some? <==> c.workdayData.Some?)
      && (c.workdayData.Some? ==>
            o.after.workdayData.value == c.workdayData.value.(userDni := c.userDni, events := Some(o.after.log)))
      && (o.sent.Some? <==> c.workdayData.Some? && TruthyText(c.userDni))
      && o.sent == SaveRequest(o.after)
  {
    if !CanStartBreak(c) then Outcome(c, None)
    else
      var o := AddLogEntry(c.(breakStartTime := Some(now)), BreakStarted, now, None);
      Outcome(o.after.(status := OnBreak), o.sent)
  }

  /**
   * The end-break button: only `on_break` with a break start moves, to
   * `working`; the break's length is added to the total and logged with it.
   */
  function OnEndBreak(c: Session, now: int): (o: Outcome)
    ensures !CanEndBreak(c) ==> o == Outcome(c, None)
    ensures CanEndBreak(c) ==>
      var length := now - c.breakStartTime.value;
      && o.after.status == Working && o.after.breakStartTime.None?
      && o.after.totalBreakDuration == c.totalBreakDuration + length
      && (now >= c.breakStartTime.value ==> o.after.totalBreakDuration >= c.totalBreakDuration)
      && o.after.log == c.log + [LogEntry(BreakEnded, now, Some(length))]
      && o.after.workStartTime == c.workStartTime && o.after.workEndTime == c.workEndTime
      && o.after.userDni == c.userDni && o.after.userRole == c.userRole
      && (o.after.workdayData.Some? <==> c.workdayData.Some?)
      && (c.workdayData.Some? ==>
            o.after.workdayData.value == c.workdayData.value.(userDni := c.userDni, events := Some(o.after.log)))
      && (o.sent.Some? <==> c.workdayData.Some? && TruthyText(c.userDni))
      && o.sent == SaveRequest(o.after)
  {
    if !CanEndBreak(c) then Outcome(c, None)
    else
      var length := now - c.breakStartTime.value;
      var o := AddLogEntry(c.(totalBreakDuration := c.totalBreakDuration + length), BreakEnded, now, Some(length));
      Outcome(o.after.(breakStartTime := None, status := Working), o.sent)
  }

  /** The end button: only `working` moves, to `finished`, stamping the end time. */
  function OnEnd(c: Session, now: int): (o: Outcome)
    ensures !CanEnd(c) ==> o == Outcome(c, None)
    ensures CanEnd(c) ==>
      && o.after.status == Finished && o.after.workEndTime == Some(now)
      && o.after.log == c.log + [LogEntry(WorkEnded, now, None)]
      && o.after.workStartTime == c.workStartTime && o.after.breakStartTime == c.breakStartTime
      && o.after.totalBreakDuration == c.totalBreakDuration
      && o.after.userDni == c.userDni && o.after.userRole == c.userRole
      && (o.after.workdayData.Some? <==> c.workdayData.Some?)
      && (c.workdayData.Some? ==>
            o.after.workdayData.value == c.workdayData.value.(userDni := c.userDni, events := Some(o.after.log), endTime := Some(now)))
      && (o.sent.Some? <==> c.workdayData.Some? && TruthyText(c.userDni))
      && o.sent == SaveRequest(o.after)
  {
    if !CanEnd(c) then Outcome(c, None)
    else
      var o := AddLogEntry(c.(workEndTime := Some(now)), WorkEnded, now, None);
      Outcome(o.after.(status := Finished), o.sent)
  }

  /**
   * The reset button: when allowed, confirmed and the stored day was deleted,
   * every clock variable returns to its initial value, a fresh record for
   * today is started and "Jornada Reiniciada" is logged in it.
   */
  function OnReset(c: Session, confirmed: bool, deleted: bool, today: string, now: int): (o: Outcome)
    ensures !(CanReset(c) && confirmed && deleted) ==> o == Outcome(c, None)
    ensures CanReset(c) && confirmed && deleted ==>
      && o.after.status == Idle
      && o.after.workStartTime.None? && o.after.workEndTime.None? && o.after.breakStartTime.None?
      && o.after.totalBreakDuration == 0
      && o.after.log == [LogEntry(WorkReset, now, None)]
      && o.after.workdayData == Some(FreshRecord(today).(userDni := c.userDni, events := Some(o.after.log)))
      && o.after.userDni == c.userDni && o.after.userRole == c.userRole
      && o.sent == SaveRequest(o.after)
  {
    if !(CanReset(c) && confirmed && deleted) then Outcome(c, None)
    else
      var cleared := c.(status := Idle, workStartTime := None, workEndTime := None, breakStartTime := None,
                        totalBreakDuration := 0, log := [], workdayData := Some(FreshRecord(today)));
      AddLogEntry(cleared, WorkReset, now, None)
  }

  /** `logout`: forgets the user and every clock variable. */
  function Logout(c: Session): (r: Session)
    ensures r.status == Idle && r.log == [] && r.totalBreakDuration == 0
    ensures r.workStartTime.None? && r.workEndTime.None? && r.breakStartTime.None?
    ensures r.workdayData.None? && r.userDni.None? && r.userRole.None?
  {
    Initial()
  }

  /**
   * `loadCurrentWorkday` given the backend's answer (`None` when it has no day
   * or the request failed): restores the variables from the record and derives
   * the status; without a record only a fresh record and `idle` are set.
   */
  function Load(c: Session, response: Option<WorkdayRecord>, today: string): (r: Session)
    ensures response.None? ==> r == c.(workdayData := Some(FreshRecord(today)), status := Idle)
    ensures response.Some? ==>
      var w := response.value;
      && r.workdayData == response
      && r.workStartTime == OrNull(w.startTime) && r.workEndTime == OrNull(w.endTime)
      && r.totalBreakDuration == OrZero(w.totalBreakDuration) && r.log == w.events.GetOr([])
      && r.status == Rebuild(r.workStartTime, r.workEndTime, r.log).status
      && r.breakStartTime == (if r.status == OnBreak then LastBreakStart(r.log) else c.breakStartTime)
      && r.userDni == c.userDni && r.userRole == c.userRole
  {
    match response
    case None => c.(workdayData := Some(FreshRecord(today)), status := Idle)
    case Some(w) =>
      var start, end, log := OrNull(w.startTime), OrNull(w.endTime), w.events.GetOr([]);
      var rebuilt := Rebuild(start, end, log);
      c.(workdayData := response, workStartTime := start, workEndTime := end,
         totalBreakDuration := OrZero(w.totalBreakDuration), log := log, status := rebuilt.status,
         breakStartTime := if rebuilt.status == OnBreak then rebuilt.breakStart else c.breakStartTime)
  }

  /** The identity the backend grants on a successful login. */
  datatype Credentials = Credentials(dni: string, role: string)

  /** The login button: on success, remember the user and load today's record; on failure nothing changes. */
  function LogIn(c: Session, granted: Option<Credentials>, stored: Option<WorkdayRecord>, today: string): (r: Session)
    ensures granted.None? ==> r == c
    ensures granted.Some? ==>
      && r.userDni == Some(granted.value.dni) && r.userRole == Some(granted.value.role)
      && r.workdayData.Some?
    ensures granted.Some? && stored.Some? ==>
      var w := stored.value;
      && r.workdayData == stored
      && r.workStartTime == OrNull(w.startTime) && r.workEndTime == OrNull(w.endTime)
      && r.totalBreakDuration == OrZero(w.totalBreakDuration) && r.log == w.events.GetOr([])
      && r.status == Rebuild(r.workStartTime, r.workEndTime, r.log).status
      && r.breakStartTime == (if r.status == OnBreak then LastBreakStart(r.log) else c.breakStartTime)
    ensures granted.Some? && stored.None? ==>
      r == c.(userDni := r.userDni, userRole := r.userRole, workdayData := Some(FreshRecord(today)), status := Idle)
  {
    match granted
    case None => c
    case Some(id) => Load(c.(userDni := Some(id.dni), userRole := Some(id.role)), stored, today)
  }

  /** Which of the five buttons `updateUI` enables. */
  datatype Buttons = Buttons(start: bool, startBreak: bool, endBreak: bool, end: bool, reset: bool)

  /** The button table of `updateUI`. */
  function ButtonsFor(s: Status): (b: Buttons)
    ensures b.end <==> s == Working
    ensures b.reset <==> s != Idle
    ensures b.start <==> !b.reset
    ensures b.startBreak <==> b.end
    ensures b.endBreak <==> s == OnBreak
  {
    match s
    case Idle => Buttons(true, false, false, false, false)
    case Working => Buttons(false, true, false, true, true)
    case OnBreak => Buttons(false, false, true, false, true)
    case Finished => Buttons(false, false, false, false, true)
  }

  function StatusMessage(s: Status): string {
    match s
    case Idle => "Listo para empezar el día."
    case Working => "¡Jornada en curso!"
    case OnBreak => "Estás en pausa."
    case Finished => "Jornada finalizada. ¡Buen trabajo!"
  }

  /** What `updateUI` shows apart from the locale-formatted clock times. */
  datatype View = View(buttons: Buttons, message: string, workText: string, breakText: string)

  /**
   * `updateUI` at time `now`: the button table, the status message, the
   * effective work and the break total as `HH:MM:SS`, each reading back as its
   * whole seconds (a negative break total shows as zero).
   */
  function Ui(c: Session, now: int): (v: View)
    ensures v.buttons == ButtonsFor(c.status)
    ensures ParseClock(v.workText) == Some(LiveWork(c.workStartTime, c.workEndTime, c.totalBreakDuration, now) / 1000)
    ensures ParseClock(v.breakText) == Some(if c.totalBreakDuration < 0 then 0 else c.totalBreakDuration / 1000)
  {
    var work := LiveWork(c.workStartTime, c.workEndTime, c.totalBreakDuration, now);
    FormatTimeReading(work);
    FormatTimeReading(c.totalBreakDuration);
    View(ButtonsFor(c.status), StatusMessage(c.status), FormatTime(Some(work)), FormatTime(Some(c.totalBreakDuration)))
  }

  // ---------------------------------------------------------------------------
  // Coherence: the live status is the one a reload would derive from the log.

  /** Sum of the durations recorded in the log. */
  function LoggedBreaks(log: seq<LogEntry>): int {
    if log == [] then 0 else LoggedBreaks(log[..|log| - 1]) + OrZero(log[|log| - 1].duration)
  }

  /** Every entry has a positive time and a non-negative duration. */
  predicate WellTimed(log: seq<LogEntry>) {
    forall i | 0 <= i < |log| :: log[i].time > 0 && OrZero(log[i].duration) >= 0
  }

  predicate LoggedBefore(log: seq<LogEntry>, now: int) {
    forall i | 0 <= i < |log| :: log[i].time < now
  }

  predicate LoggedAtMost(log: seq<LogEntry>, now: int) {
    forall i | 0 <= i < |log| :: log[i].time <= now
  }

  /**
   * The invariant of every state the buttons reach: rebuilding from the
   * variables gives the live status (and break start), a started day has a
   * start time, and the break total is the sum of the logged break lengths.
   */
  ghost predicate Coherent(c: Session) {
    var r := Rebuild(c.workStartTime, c.workEndTime, c.log);
    && r.status == c.status
    && (c.status == OnBreak ==> c.breakStartTime == r.breakStart)
    && (c.status != Idle ==> Truthy(c.workStartTime))
    && NullOrPositive(c.workStartTime) && NullOrPositive(c.workEndTime)
    && WellTimed(c.log)
    && c.totalBreakDuration == LoggedBreaks(c.log)
  }

  lemma EventNamesDiffer()
    ensures !StartsWith(WorkStarted, BreakEnded) && !StartsWith(WorkEnded, BreakEnded)
    ensures !StartsWith(WorkReset, BreakEnded) && !StartsWith(BreakStarted, BreakEnded)
    ensures StartsWith(BreakEnded, BreakEnded)
    ensures WorkStarted != BreakStarted && WorkEnded != BreakStarted
    ensures WorkReset != BreakStarted && BreakEnded != BreakStarted
  {
    assert WorkStarted[0] != BreakEnded[0];
    assert WorkEnded[0] != BreakEnded[0];
    assert WorkReset[0] != BreakEnded[0];
    assert BreakStarted[6] != BreakEnded[6];
    assert BreakEnded[6] != BreakStarted[6];
  }

  lemma LoggedBreaksAppend(log: seq<LogEntry>, e: LogEntry)
    ensures LoggedBreaks(log + [e]) == LoggedBreaks(log) + OrZero(e.duration)
  {
    assert (log + [e])[..|log|] == log;
  }

  /** Appending an entry that neither starts nor ends a break leaves the open-break test as it was. */
  lemma AppendNeutral(log: seq<LogEntry>, e: LogEntry)
    requires e.event != BreakStarted && !StartsWith(e.event, BreakEnded)
    ensures HasOpenBreak(log + [e]) == HasOpenBreak(log)
  {
    var log' := log + [e];
    forall t ensures EndedAfter(log', t) == EndedAfter(log, t) {
      if EndedAfter(log', t) {
        var j :| 0 <= j < |log'| && StartsWith(log'[j].event, BreakEnded) && log'[j].time > t;
        assert j < |log|;
        assert log[j] == log'[j];
      }
      if EndedAfter(log, t) {
        var j :| 0 <= j < |log| && StartsWith(log[j].event, BreakEnded) && log[j].time > t;
        assert log'[j] == log[j];
      }
    }
    if HasOpenBreak(log') {
      var i :| 0 <= i < |log'| && log'[i].event == BreakStarted && !EndedAfter(log', log'[i].time);
      assert i < |log| && log[i] == log'[i];
    }
    if HasOpenBreak(log) {
      var i :| 0 <= i < |log| && log[i].event == BreakStarted && !EndedAfter(log, log[i].time);
      assert log'[i] == log[i];
    }
  }

  /** A break started after everything logged is open, and it is the last break start. */
  lemma AppendBreakStart(log: seq<LogEntry>, now: int)
    requires LoggedBefore(log, now)
    ensures HasOpenBreak(log + [LogEntry(BreakStarted, now, None)])
    ensures LastBreakStart(log + [LogEntry(BreakStarted, now, None)]) == Some(now)
  {
    var log' := log + [LogEntry(BreakStarted, now, None)];
    assert !EndedAfter(log', now) by {
      forall j | 0 <= j < |log'| ensures log'[j].time <= now {
        if j < |log| { assert log'[j] == log[j]; }
      }
    }
    assert log'[|log|].event == BreakStarted;
  }

  /** A break ended after everything logged closes every break in the log. */
  lemma AppendBreakEnd(log: seq<LogEntry>, now: int, length: Option<int>)
    requires LoggedBefore(log, now)
    ensures !HasOpenBreak(log + [LogEntry(BreakEnded, now, length)])
  {
    var log' := log + [LogEntry(BreakEnded, now, length)];
    EventNamesDiffer();
    forall i | 0 <= i < |log'| && log'[i].event == BreakStarted
      ensures EndedAfter(log', log'[i].time)
    {
      assert i < |log| && log'[i] == log[i];
      assert StartsWith(log'[|log|].event, BreakEnded) && log'[|log|].time > log'[i].time;
    }
  }

  /** Appending an entry with a positive time and a non-negative duration keeps the log well timed. */
  lemma AppendWellTimed(log: seq<LogEntry>, e: LogEntry)
    requires WellTimed(log) && e.time > 0 && OrZero(e.duration) >= 0
    ensures WellTimed(log + [e])
  {
    forall i | 0 <= i < |log + [e]| ensures (log + [e])[i].time > 0 && OrZero((log + [e])[i].duration) >= 0 {
      if i < |log| {
        assert (log + [e])[i] == log[i];
      }
    }
  }

  /** Every step from a coherent state, at a time later than anything logged, keeps coherence. */
  lemma StartKeepsCoherent(c: Session, now: int)
    requires Coherent(c) && LoggedBefore(c.log, now) && now > 0
    ensures Coherent(OnStart(c, now).after)
  {
    if CanStart(c) {
      var d := OnStart(c, now).after;
      var e := LogEntry(WorkStarted, now, None);
      assert d.log == c.log + [e] && d.workStartTime == Some(now) && d.workEndTime == c.workEndTime;
      EventNamesDiffer();
      AppendNeutral(c.log, e);
      assert Rebuild(d.workStartTime, d.workEndTime, d.log) == Rebuilt(Working, None);
      LoggedBreaksAppend(c.log, e);
      AppendWellTimed(c.log, e);
    }
  }

  lemma StartBreakKeepsCoherent(c: Session, now: int)
    requires Coherent(c) && LoggedBefore(c.log, now) && now > 0
    ensures Coherent(OnStartBreak(c, now).after)
  {
    if CanStartBreak(c) {
      var d := OnStartBreak(c, now).after;
      var e := LogEntry(BreakStarted, now, None);
      assert d.log == c.log + [e] && d.breakStartTime == Some(now) && d.status == OnBreak;
      assert d.workStartTime == c.workStartTime && d.workEndTime == c.workEndTime;
      assert d.totalBreakDuration == c.totalBreakDuration;
      AppendBreakStart(c.log, now);
      assert Rebuild(d.workStartTime, d.workEndTime, d.log) == Rebuilt(OnBreak, Some(now));
      LoggedBreaksAppend(c.log, e);
      AppendWellTimed(c.log, e);
    }
  }

  lemma EndBreakKeepsCoherent(c: Session, now: int)
    requires Coherent(c) && LoggedBefore(c.log, now) && now > 0
    ensures Coherent(OnEndBreak(c, now).after)
  {
    if CanEndBreak(c) {
      var d := OnEndBreak(c, now).after;
      var i :| LastBreakAt(c.log, i) && c.log[i].time == c.breakStartTime.value;
      var length := now - c.breakStartTime.value;
      assert length > 0;
      var e := LogEntry(BreakEnded, now, Some(length));
      assert d.log == c.log + [e] && d.status == Working;
      assert d.workStartTime == c.workStartTime && d.workEndTime == c.workEndTime;
      assert d.totalBreakDuration == c.totalBreakDuration + length;
      AppendBreakEnd(c.log, now, Some(length));
      assert Rebuild(d.workStartTime, d.workEndTime, d.log) == Rebuilt(Working, None);
      LoggedBreaksAppend(c.log, e);
      AppendWellTimed(c.log, e);
    }
  }

  lemma EndKeepsCoherent(c: Session, now: int)
    requires Coherent(c) && LoggedBefore(c.log, now) && now > 0
    ensures Coherent(OnEnd(c, now).after)
  {
    if CanEnd(c) {
      var d := OnEnd(c, now).after;
      var e := LogEntry(WorkEnded, now, None);
      assert d.log == c.log + [e] && d.workEndTime == Some(now) && d.status == Finished;
      assert d.workStartTime == c.workStartTime && d.totalBreakDuration == c.totalBreakDuration;
      assert Rebuild(d.workStartTime, d.workEndTime, d.log) == Rebuilt(Finished, None);
      LoggedBreaksAppend(c.log, e);
      AppendWellTimed(c.log, e);
    }
  }

  lemma ResetKeepsCoherent(c: Session, confirmed: bool, deleted: bool, today: string, now: int)
    requires Coherent(c) && now > 0
    ensures Coherent(OnReset(c, confirmed, deleted, today, now).after)
  {
    if CanReset(c) && confirmed && deleted {
      var d := OnReset(c, confirmed, deleted, today, now).after;
      EventNamesDiffer();
      AppendNeutral([], LogEntry(WorkReset, now, None));
      LoggedBreaksAppend([], LogEntry(WorkReset, now, None));
      assert [] + [LogEntry(WorkReset, now, None)] == d.log;
    }
  }

  /**
   * A day as the store may hand it back for a coherent reload: its times are
   * unset or positive, a day that rebuilds as started has a start time, every
   * entry is well timed and the break total is the sum of the logged breaks.
   */
  predicate SoundRecord(w: WorkdayRecord) {
    var start, end, log := OrNull(w.startTime), OrNull(w.endTime), w.events.GetOr([]);
    && NullOrPositive(start) && NullOrPositive(end)
    && (Rebuild(start, end, log).status != Idle ==> Truthy(start))
    && WellTimed(log)
    && OrZero(w.totalBreakDuration) == LoggedBreaks(log)
  }

  /** Every record a coherent state saves is sound, whoever it is stored for. */
  lemma SaveIsSound(c: Session, dni: Option<string>)
    requires Coherent(c) && SaveRequest(c).Some?
    ensures SoundRecord(Stored(SaveRequest(c).value, dni))
  {
  }

  /** Loading a sound record gives a coherent state, whatever the state before. */
  lemma LoadKeepsCoherent(c: Session, w: WorkdayRecord, today: string)
    requires SoundRecord(w)
    ensures Coherent(Load(c, Some(w), today))
  {
  }

  /** A login on the blank signed-out page, given no stored day or a sound one, leaves a coherent state. */
  lemma LogInKeepsCoherent(c: Session, granted: Option<Credentials>, stored: Option<WorkdayRecord>, today: string)
    requires c == Initial()
    requires stored.Some? ==> SoundRecord(stored.value)
    ensures Coherent(LogIn(c, granted, stored, today))
  {
    if granted.Some? && stored.Some? {
      var id := granted.value;
      LoadKeepsCoherent(c.(userDni := Some(id.dni), userRole := Some(id.role)), stored.value, today);
    }
  }

  /**
   * One user action at time `at`: the login button on the signed-out page, or
   * one of the clock's buttons or logout on the signed-in page.
   */
  datatype Action =
    | PressLogIn(granted: Option<Credentials>, stored: Option<WorkdayRecord>, today: string, at: int)
    | PressStart(at: int)
    | PressStartBreak(at: int)
    | PressEndBreak(at: int)
    | PressEnd(at: int)
    | PressReset(confirmed: bool, deleted: bool, today: string, at: int)
    | PressLogout(at: int)

  /** The app container, with the clock's buttons and logout, is shown only while a user is signed in. */
  function WhenSignedIn(c: Session, o: Outcome): Outcome {
    if c.userDni.Some? then o else Outcome(c, None)
  }

  function Step(c: Session, a: Action): Outcome {
    match a
    case PressLogIn(granted, stored, today, _) =>
      // The login form is shown only while nobody is signed in.
      if c.userDni.None? then Outcome(LogIn(c, granted, stored, today), None) else Outcome(c, None)
    case PressStart(now) => WhenSignedIn(c, OnStart(c, now))
    case PressStartBreak(now) => WhenSignedIn(c, OnStartBreak(c, now))
    case PressEndBreak(now) => WhenSignedIn(c, OnEndBreak(c, now))
    case PressEnd(now) => WhenSignedIn(c, OnEnd(c, now))
    case PressReset(confirmed, deleted, today, now) => WhenSignedIn(c, OnReset(c, confirmed, deleted, today, now))
    case PressLogout(_) => WhenSignedIn(c, Outcome(Logout(c), None))
  }

  function Run(c: Session, acts: seq<Action>): Session
    decreases |acts|
  {
    if acts == [] then c else Run(Step(c, acts[0]).after, acts[1..])
  }

  /** A login receives no stored day, or a sound one whose entries are no later than the login. */
  predicate Admissible(a: Action) {
    a.PressLogIn? && a.stored.Some? ==>
      SoundRecord(a.stored.value) && LoggedAtMost(a.stored.value.events.GetOr([]), a.at)
  }

  /** Positive, strictly increasing action times (a clock that never stands still), and admissible logins. */
  predicate Clocked(acts: seq<Action>) {
    && (forall i | 0 <= i < |acts| :: acts[i].at > 0 && Admissible(acts[i]))
    && (forall i, j | 0 <= i < j < |acts| :: acts[i].at < acts[j].at)
  }

  /** Nobody signed in means a blank page: the initial state, which logout restores. */
  predicate SignedOutIsBlank(c: Session) {
    c.userDni.None? ==> c == Initial()
  }

  /** An action logs nothing later than its own time. */
  lemma StepLogsAtMost(c: Session, a: Action)
    requires LoggedBefore(c.log, a.at) && Admissible(a)
    ensures LoggedAtMost(Step(c, a).after.log, a.at)
  {
    var log := Step(c, a).after.log;
    if a.PressLogIn? {
      assert log == c.log || (a.stored.Some? && log == a.stored.value.events.GetOr([]));
    } else {
      assert log == [] || log == c.log || log == [LogEntry(WorkReset, a.at, None)]
        || (|log| == |c.log| + 1 && log[..|c.log|] == c.log && log[|c.log|].time == a.at);
      forall i | 0 <= i < |log| ensures log[i].time <= a.at {
        if |log| == |c.log| + 1 && log[..|c.log|] == c.log && i < |c.log| {
          assert log[i] == c.log[i];
        }
      }
    }
  }

  /** What an action saves mirrors the state it leaves. */
  lemma StepSendsState(c: Session, a: Action)
    ensures Step(c, a).sent.Some? ==> Step(c, a).sent == SaveRequest(Step(c, a).after)
  {
  }

  /** Only a login signs a user in, and only logout signs them out. */
  lemma StepKeepsBlank(c: Session, a: Action)
    requires SignedOutIsBlank(c)
    ensures SignedOutIsBlank(Step(c, a).after)
  {
  }

  /** Each action keeps coherence and a blank signed-out page, and logs nothing later than its own time. */
  lemma StepKeepsCoherent(c: Session, a: Action)
    requires Coherent(c) && SignedOutIsBlank(c) && LoggedBefore(c.log, a.at) && a.at > 0 && Admissible(a)
    ensures Coherent(Step(c, a).after) && SignedOutIsBlank(Step(c, a).after)
    ensures LoggedAtMost(Step(c, a).after.log, a.at)
    ensures Step(c, a).sent.Some? ==> Step(c, a).sent == SaveRequest(Step(c, a).after)
  {
    StepLogsAtMost(c, a);
    StepSendsState(c, a);
    StepKeepsBlank(c, a);
    match a
    case PressLogIn(granted, stored, today, _) =>
      if c.userDni.None? {
        LogInKeepsCoherent(c, granted, stored, today);
      }
    case PressStart(now) => StartKeepsCoherent(c, now);
    case PressStartBreak(now) => StartBreakKeepsCoherent(c, now);
    case PressEndBreak(now) => EndBreakKeepsCoherent(c, now);
    case PressEnd(now) => EndKeepsCoherent(c, now);
    case PressReset(confirmed, deleted, today, now) => ResetKeepsCoherent(c, confirmed, deleted, today, now);
    case PressLogout(_) =>
  }

  /** Any sequence of actions on a clocked timeline keeps coherence. */
  lemma {:induction false} RunKeepsCoherent(c: Session, acts: seq<Action>)
    requires Coherent(c) && SignedOutIsBlank(c) && Clocked(acts)
    requires acts != [] ==> LoggedBefore(c.log, acts[0].at)
    ensures Coherent(Run(c, acts)) && SignedOutIsBlank(Run(c, acts))
    decreases |acts|
  {
    if acts != [] {
      var d := Step(c, acts[0]).after;
      StepKeepsCoherent(c, acts[0]);
      var rest := acts[1..];
      assert Clocked(rest) by {
        forall i | 0 <= i < |rest| ensures rest[i].at > 0 && Admissible(rest[i]) {
          assert rest[i] == acts[i + 1];
        }
        forall i, j | 0 <= i < j < |rest| ensures rest[i].at < rest[j].at {
          assert rest[i] == acts[i + 1] && rest[j] == acts[j + 1];
        }
      }
      if rest != [] {
        assert acts[0].at < rest[0].at by { assert rest[0] == acts[1]; }
      }
      RunKeepsCoherent(d, rest);
    }
  }

  /** Every state the page reaches from the initial one is coherent. */
  lemma ReachableIsCoherent(acts: seq<Action>)
    requires Clocked(acts)
    ensures Coherent(Run(Initial(), acts)) && SignedOutIsBlank(Run(Initial(), acts))
  {
    RunKeepsCoherent(Initial(), acts);
  }

  /** No action leaves a signed-in user without a record of the day: login always loads one. */
  lemma StepKeepsRecord(c: Session, a: Action)
    requires c.userDni.Some? ==> c.workdayData.Some?
    ensures Step(c, a).after.userDni.Some? ==> Step(c, a).after.workdayData.Some?
  {
  }

  /** Along any run, whoever is signed in has a record of the day. */
  lemma {:induction false} RunKeepsRecord(c: Session, acts: seq<Action>)
    requires c.userDni.Some? ==> c.workdayData.Some?
    ensures Run(c, acts).userDni.Some? ==> Run(c, acts).workdayData.Some?
    decreases |acts|
  {
    if acts != [] {
      StepKeepsRecord(c, acts[0]);
      RunKeepsRecord(Step(c, acts[0]).after, acts[1..]);
    }
  }

  /**
   * Reachable signed-in states save: with a non-empty DNI signed in and the
   * day idle, the start button posts the day, at any time.
   */
  lemma SignedInStartSaves(acts: seq<Action>, now: int)
    ensures
      var c := Run(Initial(), acts);
      TruthyText(c.userDni) && c.status == Idle ==> Step(c, PressStart(now)).sent.Some?
  {
    RunKeepsRecord(Initial(), acts);
  }

  /** Such states exist: one login reaches a signed-in idle page whose start button saves. */
  lemma LoginThenStartSaves()
    ensures
      var c := Run(Initial(), [PressLogIn(Some(Credentials("12345678Z", "employee")), None, "2024-05-06", 1000)]);
      && c.userDni == Some("12345678Z") && c.status == Idle
      && Step(c, PressStart(2000)).sent.Some?
  {
    var acts := [PressLogIn(Some(Credentials("12345678Z", "employee")), None, "2024-05-06", 1000)];
    var c1 := Step(Initial(), acts[0]).after;
    assert Run(Initial(), acts) == Run(c1, []);
  }

  /**
   * In a coherent state the button table enables exactly the buttons whose
   * handler guard passes: end is never enabled on a break, and an enabled
   * end-break button always has a break start to measure from.
   */
  lemma ButtonsMatchGuards(c: Session)
    requires Coherent(c)
    ensures ButtonsFor(c.status) == Buttons(CanStart(c), CanStartBreak(c), CanEndBreak(c), CanEnd(c), CanReset(c))
  {
    if c.status == OnBreak {
      var i :| LastBreakAt(c.log, i) && c.log[i].time == c.breakStartTime.value;
    }
  }

  lemma {:induction false} LoggedBreaksNonNegative(log: seq<LogEntry>)
    requires WellTimed(log)
    ensures LoggedBreaks(log) >= 0
  {
    if log != [] {
      assert WellTimed(log[..|log| - 1]) by {
        forall i | 0 <= i < |log| - 1 ensures log[..|log| - 1][i] == log[i] { }
      }
      LoggedBreaksNonNegative(log[..|log| - 1]);
    }
  }

  /** In a coherent state the break total is the sum of the logged breaks, hence never negative. */
  lemma BreakTotalMatchesLog(c: Session)
    requires Coherent(c)
    ensures c.totalBreakDuration == LoggedBreaks(c.log) && c.totalBreakDuration >= 0
  {
    LoggedBreaksNonNegative(c.log);
  }

  /**
   * Loading back the record a coherent state saved restores its status, its
   * times, its break total, its log and, on a break, its break start.
   */
  lemma ReloadRestores(c: Session, prior: Session, dni: Option<string>, today: string)
    requires Coherent(c) && SaveRequest(c).Some?
    ensures
      var r := Load(prior, Some(Stored(SaveRequest(c).value, dni)), today);
      && r.status == c.status && r.workStartTime == c.workStartTime && r.workEndTime == c.workEndTime
      && r.totalBreakDuration == c.totalBreakDuration && r.log == c.log
      && (c.status == OnBreak ==> r.breakStartTime == c.breakStartTime)
  {
  }

  /**
   * Signing out and in again, when the store hands back the day last saved,
   * restores the clock: its status, times, break total, log and, on a break,
   * its break start.
   */
  lemma LogoutLogInRestores(c: Session, id: Credentials, dni: Option<string>, today: string)
    requires Coherent(c) && SaveRequest(c).Some?
    ensures
      var r := LogIn(Logout(c), Some(id), Some(Stored(SaveRequest(c).value, dni)), today);
      && r.userDni == Some(id.dni) && r.userRole == Some(id.role)
      && r.status == c.status && r.workStartTime == c.workStartTime && r.workEndTime == c.workEndTime
      && r.totalBreakDuration == c.totalBreakDuration && r.log == c.log
      && (c.status == OnBreak ==> r.breakStartTime == c.breakStartTime)
  {
    ReloadRestores(c, Logout(c).(userDni := Some(id.dni), userRole := Some(id.role)), dni, today);
  }

  /**
   * After any handler, on a clocked timeline from a coherent state, the record
   * it saved reloads as exactly the state the handler left.
   */
  lemma ReloadAfterStep(c: Session, a: Action, prior: Session, dni: Option<string>, today: string)
    requires Coherent(c) && SignedOutIsBlank(c) && LoggedBefore(c.log, a.at) && a.at > 0 && Admissible(a)
    requires Step(c, a).sent.Some?
    ensures
      var d := Step(c, a).after;
      var r := Load(prior, Some(Stored(Step(c, a).sent.value, dni)), today);
      && r.status == d.status && r.workStartTime == d.workStartTime && r.workEndTime == d.workEndTime
      && r.totalBreakDuration == d.totalBreakDuration && r.log == d.log
      && (d.status == OnBreak ==> r.breakStartTime == d.breakStartTime)
  {
    StepKeepsCoherent(c, a);
    ReloadRestores(Step(c, a).after, prior, dni, today);
  }

  /**
   * The clocked-timeline condition is needed: a break started and ended in the
   * same millisecond leaves the clock working, yet the log rebuilds as on a break.
   */
  lemma SameMillisecondBreakReloadsAsOpen()
    ensures
      var login := PressLogIn(Some(Credentials("12345678Z", "employee")), None, "2024-05-06", 500);
      var c := Run(Initial(), [login, PressStart(1000), PressStartBreak(2000), PressEndBreak(2000)]);
      c.status == Working && Rebuild(c.workStartTime, c.workEndTime, c.log).status == OnBreak
  {
    var login := PressLogIn(Some(Credentials("12345678Z", "employee")), None, "2024-05-06", 500);
    var acts := [login, PressStart(1000), PressStartBreak(2000), PressEndBreak(2000)];
    var c0 := Step(Initial(), login).after;
    assert c0.userDni == Some("12345678Z") && c0.status == Idle && c0.log == [];
    var c1 := OnStart(c0, 1000).after;
    assert c1.status == Working && c1.log == [LogEntry(WorkStarted, 1000, None)] && c1.userDni == c0.userDni;
    var c2 := OnStartBreak(c1, 2000).after;
    assert c2.status == OnBreak && c2.breakStartTime == Some(2000) && c2.userDni == c0.userDni;
    assert c2.log == [LogEntry(WorkStarted, 1000, None), LogEntry(BreakStarted, 2000, None)];
    var c3 := OnEndBreak(c2, 2000).after;
    assert c3.status == Working && c3.workEndTime.None?;
    assert c3.log == c2.log + [LogEntry(BreakEnded, 2000, Some(0))];
    assert Run(Initial(), acts) == Run(c0, acts[1..]);
    assert Run(c0, acts[1..]) == Run(c1, acts[2..]);
    assert Run(c1, acts[2..]) == Run(c2, acts[3..]);
    assert Run(c2, acts[3..]) == Run(c3, []);
    var log := c3.log;
    assert log[1] == LogEntry(BreakStarted, 2000, None);
    assert !EndedAfter(log, 2000);
    assert HasOpenBreak(log);
  }
}

=== FILE: journal.dfy ===
/** The entities of the workday clock and the effective-work clamp. */
module Journal {
  import opened JsValues

  /** The clock's `status`: 'idle', 'working', 'on_break' or 'finished'. */
  datatype Status = Idle | Working | OnBreak | Finished

  /** One entry of the day's event log, `{event, time, duration}`, times in milliseconds. */
  datatype LogEntry = LogEntry(event: string, time: int, duration: Option<int>)

  /**
   * A workday as the backend returns it and as the client keeps it in
   * `currentWorkdayData`; JSON fields that may be null or missing are options.
   */
  datatype WorkdayRecord = WorkdayRecord(
    date: string,
    userDni: Option<string>,
    startTime: Option<int>,
    endTime: Option<int>,
    totalBreakDuration: Option<int>,
    events: Option<seq<LogEntry>>)

  /** The body of a save: the record handed off to the backend. */
  datatype Payload = Payload(
    date: string,
    startTime: Option<int>,
    endTime: Option<int>,
    totalBreakDuration: int,
    events: seq<LogEntry>)

  const WorkStarted: string := "Jornada Iniciada"
  const BreakStarted: string := "Pausa Iniciada"
  const BreakEnded: string := "Pausa Finalizada"
  const WorkEnded: string := "Jornada Finalizada"
  const WorkReset: string := "Jornada Reiniciada"

  /** `s.startsWith(prefix)`. */
  predicate StartsWith(s: string, prefix: string) {
    |prefix| <= |s| && s[..|prefix|] == prefix
  }

  /** The record a save would leave in the store for the user `dni`. */
  function Stored(p: Payload, dni: Option<string>): WorkdayRecord {
    WorkdayRecord(p.date, dni, p.startTime, p.endTime, Some(p.totalBreakDuration), Some(p.events))
  }

  /**
   * Effective work shown on the clock page: nothing before the day starts,
   * otherwise the time from the start to the end (or to `now` while the day is
   * open) minus the breaks, clamped at zero.
   */
  function LiveWork(start: Option<int>, end: Option<int>, totalBreak: int, now: int): (r: int)
    ensures r >= 0
    ensures !Truthy(start) ==> r == 0
    ensures Truthy(start) ==>
      var elapsed := (if Truthy(end) then end.value else now) - start.value - totalBreak;
      r >= elapsed && (r == 0 || r == elapsed)
  {
    if !Truthy(start) then 0
    else
      var stop := if Truthy(end) then end.value else now;
      var effective := stop - start.value - totalBreak;
      if effective < 0 then 0 else effective
  }

  /**
   * Effective work of a stored day in the records, export and admin views:
   * counted only when both start and end are set, clamped at zero.
   */
  function RecordWork(w: WorkdayRecord): (r: int)
    ensures r >= 0
    ensures !(Truthy(w.startTime) && Truthy(w.endTime)) ==> r == 0
    ensures Truthy(w.startTime) && Truthy(w.endTime) ==>
      var elapsed := w.endTime.value - w.startTime.value - OrZero(w.totalBreakDuration);
      r >= elapsed && (r == 0 || r == elapsed)
  {
    if Truthy(w.startTime) && Truthy(w.endTime) then
      var work := w.endTime.value - w.startTime.value - OrZero(w.totalBreakDuration);
      if work < 0 then 0 else work
    else 0
  }

  /** A stored day's break total, `total_break_duration || 0`. */
  function RecordBreak(w: WorkdayRecord): int {
    OrZero(w.totalBreakDuration)
  }

  /**
   * A finished day shows the same effective work on the clock page, whatever
   * the time, as the records views show for the record it saved.
   */
  lemma FinishedDayAgrees(p: Payload, dni: Option<string>, now: int)
    requires Truthy(p.startTime) && Truthy(p.endTime)
    ensures LiveWork(p.startTime, p.endTime, p.totalBreakDuration, now) == RecordWork(Stored(p, dni))
  {
  }
}

=== FILE: js_values.dfy ===
/** The JavaScript value conventions the workday clock relies on. */
module JsValues {

  /** A value that may be `null`, `undefined` or missing from a JSON object. */
  datatype Option<+T> = None | Some(value: T) {

    /** `x || fallback` for a value whose every present form is truthy (arrays, objects). */
    function GetOr(fallback: T): T {
      match this
      case Some(v) => v
      case None => fallback
    }
  }

  /** JavaScript truthiness of a nullable millisecond count: `null` and `0` are falsy. */
  predicate Truthy(o: Option<int>) {
    o.Some? && o.value != 0
  }

  /** JavaScript truthiness of a nullable string: `null` and `""` are falsy. */
  predicate TruthyText(o: Option<string>) {
    o.Some? && o.value != ""
  }

  /** `x || null` on a nullable millisecond count. */
  function OrNull(o: Option<int>): Option<int> {
    if Truthy(o) then o else None
  }

  /** `x || 0` on a nullable millisecond count. */
  function OrZero(o: Option<int>): int {
    if o.Some? then o.value else 0
  }

  /** A nullable timestamp that is either unset or a positive (hence truthy) count. */
  predicate NullOrPositive(o: Option<int>) {
    o.None? || o.value > 0
  }
}

=== FILE: reports.dfy ===
/**
 * The records views over stored workdays: the daily summary, the weekly and
 * monthly totals, the administrator's listing with its DNI filter, and the
 * events cell of the CSV export.
 */
module Reports {
  import opened JsValues
  import opened Journal
  import opened TimeFormat
  import opened Text

  // ---------------------------------------------------------------------------
  // Daily view

  /** The backend's answer to a request for one day; `Unanswered` when the request failed. */
  datatype DayAnswer = Unanswered | Answer(success: bool, workday: Option<WorkdayRecord>, message: string)

  /** One line of the day's event table: event, time, and the duration text (`--` when none). */
  datatype EventRow = EventRow(event: string, time: int, durationText: string)

  datatype DailyView =
    | PickDate
    | Day(rows: seq<EventRow>, totalWork: int, totalBreak: int)
    | Notice(text: string)

  function EventRowOf(e: LogEntry): EventRow {
    EventRow(e.event, e.time, if Truthy(e.duration) then FormatTime(e.duration) else "--")
  }

  /**
   * The daily view for the chosen date: a prompt when no date is chosen, the
   * day's events and summary when the backend returned a day, otherwise the
   * backend's message or a "no records" notice.
   */
  function DailyRecords(date: string, answer: DayAnswer): (v: DailyView)
    ensures date == "" <==> v.PickDate?
    ensures v.Day? ==>
      && answer.Answer? && answer.success && answer.workday.Some?
      && var w := answer.workday.value;
      && var events := w.events.GetOr([]);
      && |v.rows| == |events|
      && (forall i | 0 <= i < |events| :: v.rows[i].event == events[i].event && v.rows[i].time == events[i].time)
      && v.totalWork == RecordWork(w) && v.totalWork >= 0 && v.totalBreak == RecordBreak(w)
    ensures date != "" && answer.Answer? && answer.success && answer.workday.Some? ==> v.Day?
  {
    if date == "" then PickDate
    else if answer.Answer? && answer.success && answer.workday.Some? then
      var w := answer.workday.value;
      var events := w.events.GetOr([]);
      Day(seq(|events|, i requires 0 <= i < |events| => EventRowOf(events[i])), RecordWork(w), RecordBreak(w))
    else if answer.Answer? && !answer.success && answer.message != "" then Notice(answer.message)
    else Notice("No hay registros para esta fecha.")
  }

  // ---------------------------------------------------------------------------
  // Weekly and monthly views

  /** One line of the weekly or monthly table. */
  datatype DayRow = DayRow(date: string, work: int, brk: int)

  function DayRowOf(w: WorkdayRecord): DayRow {
    DayRow(w.date, RecordWork(w), RecordBreak(w))
  }

  /** Sum of the clamped effective work of the days. */
  function SumWork(days: seq<WorkdayRecord>): (r: int)
    ensures r >= 0
    ensures days != [] ==> r >= RecordWork(days[|days| - 1])
  {
    if days == [] then 0 else SumWork(days[..|days| - 1]) + RecordWork(days[|days| - 1])
  }

  /** Sum of the break totals of the days. */
  function SumBreak(days: seq<WorkdayRecord>): int {
    if days == [] then 0 else SumBreak(days[..|days| - 1]) + RecordBreak(days[|days| - 1])
  }

  datatype PeriodView =
    | LoadFailed
    | NoRecords
    | Summary(rows: seq<DayRow>, totalWork: int, totalBreak: int)

  /**
   * The weekly (and, identically, the monthly) view over the days of the
   * period: a line per day in order, and the running totals of work and breaks.
   */
  method SummarizePeriod(period: Option<seq<WorkdayRecord>>) returns (v: PeriodView)
    ensures period.None? ==> v == LoadFailed
    ensures period == Some([]) ==> v == NoRecords
    ensures period.Some? && period.value != [] ==>
      && v.Summary? && |v.rows| == |period.value|
      && (forall i | 0 <= i < |period.value| :: v.rows[i] == DayRowOf(period.value[i]))
      && v.totalWork == SumWork(period.value) && v.totalBreak == SumBreak(period.value)
  {
    if period.None? {
      return LoadFailed;
    }
    var days := period.value;
    if |days| == 0 {
      return NoRecords;
    }
    var totalWork, totalBreak := 0, 0;
    var rows: seq<DayRow> := [];
    for i := 0 to |days|
      invariant |rows| == i
      invariant forall k | 0 <= k < i :: rows[k] == DayRowOf(days[k])
      invariant totalWork == SumWork(days[..i])
      invariant totalBreak == SumBreak(days[..i])
    {
      assert days[..i + 1][..i] == days[..i];
      var breakDuration := OrZero(days[i].totalBreakDuration);
      var workDuration := 0;
      if Truthy(days[i].startTime) && Truthy(days[i].endTime) {
        workDuration := days[i].endTime.value - days[i].startTime.value - breakDuration;
        if workDuration < 0 {
          workDuration := 0;
        }
      }
      totalWork := totalWork + workDuration;
      totalBreak := totalBreak + breakDuration;
      rows := rows + [DayRow(days[i].date, workDuration, breakDuration)];
    }
    assert days[..|days|] == days;
    v := Summary(rows, totalWork, totalBreak);
  }

  /** The totals over two consecutive stretches of days add up to the total over both. */
  lemma {:induction false} SumsAppend(a: seq<WorkdayRecord>, b: seq<WorkdayRecord>)
    ensures SumWork(a + b) == SumWork(a) + SumWork(b)
    ensures SumBreak(a + b) == SumBreak(a) + SumBreak(b)
    decreases |b|
  {
    if b == [] {
      assert a + b == a;
    } else {
      var b' := b[..|b| - 1];
      assert (a + b)[..|a + b| - 1] == a + b';
      SumsAppend(a, b');
    }
  }

  /** No single day's effective work exceeds the period's total. */
  lemma {:induction false} DayWithinTotal(days: seq<WorkdayRecord>, i: int)
    requires 0 <= i < |days|
    ensures RecordWork(days[i]) <= SumWork(days)
    decreases |days|
  {
    if i < |days| - 1 {
      assert days[..|days| - 1][i] == days[i];
      DayWithinTotal(days[..|days| - 1], i);
    }
  }

  // ---------------------------------------------------------------------------
  // Administrator's listing

  /** The characters JavaScript's `trim` removes: white space and line terminators. */
  predicate IsSpace(c: char) {
    c == ' ' || c == '\t' || c == '\n' || c == '\r' || c == '\U{000B}' || c == '\U{000C}'
    || c == '\U{00A0}' || c == '\U{1680}' || ('\U{2000}' <= c <= '\U{200A}')
    || c == '\U{2028}' || c == '\U{2029}' || c == '\U{202F}' || c == '\U{205F}'
    || c == '\U{3000}' || c == '\U{FEFF}'
  }

  predicate AllSpaces(s: string) {
    forall k | 0 <= k < |s| :: IsSpace(s[k])
  }

  /** Number of white-space characters at the front. */
  function Leading(s: string): (n: nat)
    ensures n <= |s| && AllSpaces(s[..n])
    ensures n < |s| ==> !IsSpace(s[n])
    decreases |s|
  {
    if s != [] && IsSpace(s[0]) then
      var n := 1 + Leading(s[1..]);
      assert forall k | 1 <= k < n :: s[..n][k] == s[1..][..n - 1][k - 1];
      n
    else 0
  }

  /** Number of white-space characters at the back. */
  function Trailing(s: string): (n: nat)
    ensures n <= |s| && AllSpaces(s[|s| - n..])
    ensures n < |s| ==> !IsSpace(s[|s| - n - 1])
    decreases |s|
  {
    if s != [] && IsSpace(s[|s| - 1]) then
      var t := s[..|s| - 1];
      var m := Trailing(t);
      var n := 1 + m;
      assert AllSpaces(s[|s| - n..]) by {
        forall k | |s| - n <= k < |s| ensures IsSpace(s[k]) {
          if k < |s| - 1 {
            assert s[k] == t[|t| - m..][k - (|t| - m)];
          }
        }
      }
      assert n < |s| ==> s[|s| - n - 1] == t[|t| - m - 1];
      n
    else 0
  }

  /**
   * `s.trim()`: the middle of `s` between white space at either end; it is
   * empty exactly when `s` is all white space.
   */
  function Trim(s: string): (r: string)
    ensures r == "" <==> AllSpaces(s)
    ensures r != "" ==> !IsSpace(r[0]) && !IsSpace(r[|r| - 1])
    ensures r == s[Leading(s)..|s| - Trailing(s[Leading(s)..])]
  {
    var lead := Leading(s);
    var rest := s[lead..];
    var trail := Trailing(rest);
    if rest == [] then
      assert s[..lead] == s;
      ""
    else
      assert trail < |rest|;
      var r := s[lead..|s| - trail];
      assert r == rest[..|rest| - trail];
      assert r != "" ==> r[0] == rest[0];
      r
  }

  /** `workdays.filter(wd => wd.user_dni === dni)`. */
  function FilterByDni(days: seq<WorkdayRecord>, dni: string): (r: seq<WorkdayRecord>)
    ensures |r| <= |days|
    ensures forall w :: w in r <==> w in days && w.userDni == Some(dni)
    decreases |days|
  {
    if days == [] then []
    else (if days[0].userDni == Some(dni) then [days[0]] else []) + FilterByDni(days[1..], dni)
  }

  /** Filtering keeps the order: it distributes over concatenation. */
  lemma {:induction false} FilterByDniAppend(a: seq<WorkdayRecord>, b: seq<WorkdayRecord>, dni: string)
    ensures FilterByDni(a + b, dni) == FilterByDni(a, dni) + FilterByDni(b, dni)
    decreases |a|
  {
    if a != [] {
      assert (a + b)[0] == a[0];
      assert (a + b)[1..] == a[1..] + b;
      FilterByDniAppend(a[1..], b, dni);
    } else {
      assert a + b == b;
    }
  }

  /** One line of the administrator's table. */
  datatype AdminRow = AdminRow(userDni: Option<string>, date: string, work: int, brk: int)

  datatype AdminView =
    | AdminLoadFailed
    | NoneForDni(dni: string)
    | NoWorkdays
    | AdminTable(rows: seq<AdminRow>)

  function AdminRowOf(w: WorkdayRecord): AdminRow {
    AdminRow(w.userDni, w.date, RecordWork(w), RecordBreak(w))
  }

  /** The table lines of the listed days, in order. */
  function AdminRows(days: seq<WorkdayRecord>): seq<AdminRow> {
    seq(|days|, i requires 0 <= i < |days| => AdminRowOf(days[i]))
  }

  /**
   * The "view all workdays" button: the backend's list (`None` when the request
   * failed), narrowed to the trimmed DNI filter when one is given.
   */
  function AllWorkdays(response: Option<seq<WorkdayRecord>>, filterInput: string): (v: AdminView)
    ensures response.None? <==> v.AdminLoadFailed?
    ensures v.NoneForDni? <==>
      response.Some? && Trim(filterInput) != "" && |FilterByDni(response.value, Trim(filterInput))| == 0
    ensures v.NoWorkdays? <==> response.Some? && |response.value| == 0 && Trim(filterInput) == ""
    ensures v.AdminTable? ==>
      && |v.rows| > 0
      && (forall i | 0 <= i < |v.rows| :: v.rows[i].work >= 0)
      && (Trim(filterInput) != "" ==> forall i | 0 <= i < |v.rows| :: v.rows[i].userDni == Some(Trim(filterInput)))
      && (Trim(filterInput) == "" ==> |v.rows| == |response.value|)
      && v.rows == AdminRows(if Trim(filterInput) != "" then FilterByDni(response.value, Trim(filterInput)) else response.value)
  {
    match response
    case None => AdminLoadFailed
    case Some(all) =>
      var dni := Trim(filterInput);
      if dni != "" then
        var days := FilterByDni(all, dni);
        if |days| == 0 then NoneForDni(dni)
        else
          assert forall i | 0 <= i < |days| :: days[i] in days;
          AdminTable(AdminRows(days))
      else if |all| == 0 then NoWorkdays
      else AdminTable(AdminRows(all))
  }

  /** The days the listing selects: the filtered user's, or every day without a filter. */
  predicate Selected(w: WorkdayRecord, dni: string) {
    dni == "" || w.userDni == Some(dni)
  }

  /** The lines of a list of days are exactly the lines of its members. */
  lemma RowsOfMembers(days: seq<WorkdayRecord>)
    ensures forall w | w in days :: AdminRowOf(w) in AdminRows(days)
    ensures forall r | r in AdminRows(days) :: exists w | w in days :: r == AdminRowOf(w)
  {
    var rows := AdminRows(days);
    forall w | w in days ensures AdminRowOf(w) in rows {
      var i :| 0 <= i < |days| && days[i] == w;
      assert rows[i] == AdminRowOf(w);
    }
    forall r | r in rows ensures exists w | w in days :: r == AdminRowOf(w) {
      var i :| 0 <= i < |rows| && rows[i] == r;
      assert days[i] in days;
    }
  }

  /**
   * The table lists exactly the selected days: each selected day of the
   * answer has its line in the table, and each line comes from a selected day.
   */
  lemma AdminTableListsSelected(response: seq<WorkdayRecord>, filterInput: string)
    requires AllWorkdays(Some(response), filterInput).AdminTable?
    ensures
      var rows, dni := AllWorkdays(Some(response), filterInput).rows, Trim(filterInput);
      && (forall w | w in response && Selected(w, dni) :: AdminRowOf(w) in rows)
      && (forall r | r in rows :: exists w | w in response && Selected(w, dni) :: r == AdminRowOf(w))
  {
    var dni := Trim(filterInput);
    var days := if dni != "" then FilterByDni(response, dni) else response;
    assert AllWorkdays(Some(response), filterInput).rows == AdminRows(days);
    assert forall w :: w in days <==> w in response && Selected(w, dni);
    RowsOfMembers(days);
  }

  // ---------------------------------------------------------------------------
  // CSV export: the events cell

  /**
   * One event in the export: `event (HH:MM:SS) @ time`, the duration part only
   * when the duration is set and non-zero; `clockText` is the browser's
   * locale-dependent time of day.
   */
  function CsvEvent(e: LogEntry, clockText: int -> string): (r: string)
    ensures StartsWith(r, e.event)
    ensures |clockText(e.time)| <= |r| && r[|r| - |clockText(e.time)|..] == clockText(e.time)
    ensures ';' !in e.event && ';' !in clockText(e.time) ==> ';' !in r
  {
    var duration := if Truthy(e.duration) then " (" + FormatTime(e.duration) + ")" else "";
    FormatTimeHasNoSemicolon(e.duration);
    assert (e.event + duration + " @ " + clockText(e.time))[..|e.event|] == e.event;
    e.event + duration + " @ " + clockText(e.time)
  }

  /** `(wd.events || []).map(…).join('; ')`: empty without events, the one event's text for one. */
  function CsvEvents(events: Option<seq<LogEntry>>, clockText: int -> string): (r: string)
    ensures events.GetOr([]) == [] ==> r == ""
    ensures |events.GetOr([])| == 1 ==> r == CsvEvent(events.GetOr([])[0], clockText)
  {
    var evs := events.GetOr([]);
    Join(seq(|evs|, i requires 0 <= i < |evs| => CsvEvent(evs[i], clockText)), "; ")
  }

  /**
   * Splitting a `"; "`-joined list of pieces without `;` at the `;`s gives
   * back the first piece (after `pre`) and each later piece after its space.
   */
  lemma {:induction false} SplitJoined(pre: string, parts: seq<string>)
    requires |parts| >= 1 && ';' !in pre
    requires forall i | 0 <= i < |parts| :: ';' !in parts[i]
    ensures Split(pre + Join(parts, "; "), ';')
      == [pre + parts[0]] + seq(|parts| - 1, i requires 0 <= i < |parts| - 1 => " " + parts[i + 1])
    decreases |parts|
  {
    if |parts| == 1 {
      SplitWithoutSeparator(pre + parts[0], ';');
    } else {
      var rest := parts[1..];
      assert pre + Join(parts, "; ") == (pre + parts[0]) + [';'] + (" " + Join(rest, "; "));
      SplitAtFirst(pre + parts[0], ';', " " + Join(rest, "; "));
      assert forall i | 0 <= i < |rest| :: rest[i] == parts[i + 1];
      SplitJoined(" ", rest);
    }
  }

  /**
   * When no event name and no time of day contains a `;`, the events cell
   * splits at `;` back into the events' texts: one piece per event, the first
   * as is and each later one after the space of its `"; "` separator.
   */
  lemma CsvEventsSplitBack(events: Option<seq<LogEntry>>, clockText: int -> string)
    requires events.GetOr([]) != []
    requires forall e | e in events.GetOr([]) :: ';' !in e.event && ';' !in clockText(e.time)
    ensures
      var evs, pieces := events.GetOr([]), Split(CsvEvents(events, clockText), ';');
      && |pieces| == |evs|
      && pieces[0] == CsvEvent(evs[0], clockText)
      && forall i | 1 <= i < |evs| :: pieces[i] == " " + CsvEvent(evs[i], clockText)
  {
    var evs := events.GetOr([]);
    var parts := seq(|evs|, i requires 0 <= i < |evs| => CsvEvent(evs[i], clockText));
    forall i | 0 <= i < |parts| ensures ';' !in parts[i] {
      assert evs[i] in evs;
    }
    SplitJoined("", parts);
    assert "" + Join(parts, "; ") == CsvEvents(events, clockText);
  }
}

=== FILE: status_rebuild.dfy ===
/** Deriving the clock status from a stored workday when the page loads. */
module StatusRebuild {
  import opened JsValues
  import opened Journal

  /** Some entry whose event starts with "Pausa Finalizada" is strictly later than `t`. */
  predicate EndedAfter(log: seq<LogEntry>, t: int) {
    exists j | 0 <= j < |log| :: StartsWith(log[j].event, BreakEnded) && log[j].time > t
  }

  /** Some "Pausa Iniciada" has no strictly later "Pausa Finalizada…". */
  predicate HasOpenBreak(log: seq<LogEntry>) {
    exists i | 0 <= i < |log| :: log[i].event == BreakStarted && !EndedAfter(log, log[i].time)
  }

  /** Position `i` holds the last "Pausa Iniciada" of the log. */
  predicate LastBreakAt(log: seq<LogEntry>, i: int) {
    0 <= i < |log| && log[i].event == BreakStarted
    && forall k | i < k < |log| :: log[k].event != BreakStarted
  }

  /** The time of the last "Pausa Iniciada": `log.filter(e => e.event === 'Pausa Iniciada').pop()`. */
  function LastBreakStart(log: seq<LogEntry>): (r: Option<int>)
    ensures r.None? <==> forall i | 0 <= i < |log| :: log[i].event != BreakStarted
    ensures r.Some? ==> exists i :: LastBreakAt(log, i) && log[i].time == r.value
  {
    if log == [] then None
    else if log[|log| - 1].event == BreakStarted then
      assert LastBreakAt(log, |log| - 1);
      Some(log[|log| - 1].time)
    else
      var r := LastBreakStart(log[..|log| - 1]);
      LastBreakStartStep(log, r);
      r
  }

  /** A last break start of the log without its final entry is still the last one when that entry is not a break start. */
  lemma LastBreakStartStep(log: seq<LogEntry>, r: Option<int>)
    requires log != [] && log[|log| - 1].event != BreakStarted
    requires r.None? <==> forall i | 0 <= i < |log| - 1 :: log[i].event != BreakStarted
    requires r.Some? ==> exists i :: LastBreakAt(log[..|log| - 1], i) && log[i].time == r.value
    ensures r.None? <==> forall i | 0 <= i < |log| :: log[i].event != BreakStarted
    ensures r.Some? ==> exists i :: LastBreakAt(log, i) && log[i].time == r.value
  {
    if r.Some? {
      var i :| LastBreakAt(log[..|log| - 1], i) && log[i].time == r.value;
      assert LastBreakAt(log, i);
    }
  }

  /** The status derived from the log, and the break start it sets (only when on break). */
  datatype Rebuilt = Rebuilt(status: Status, breakStart: Option<int>)

  /**
   * A set end time gives finished; else an open break gives on_break with the
   * last break start; else a set start time gives working; else idle.
   */
  function Rebuild(start: Option<int>, end: Option<int>, log: seq<LogEntry>): (r: Rebuilt)
    ensures r.status == Finished <==> Truthy(end)
    ensures r.status == OnBreak <==> !Truthy(end) && HasOpenBreak(log)
    ensures r.status == Working <==> !Truthy(end) && !HasOpenBreak(log) && Truthy(start)
    ensures r.status == Idle <==> !Truthy(end) && !HasOpenBreak(log) && !Truthy(start)
    ensures r.status == OnBreak ==> r.breakStart.Some? && r.breakStart == LastBreakStart(log)
    ensures r.status != OnBreak ==> r.breakStart.None?
  {
    if Truthy(end) then Rebuilt(Finished, None)
    else if HasOpenBreak(log) then Rebuilt(OnBreak, LastBreakStart(log))
    else if Truthy(start) then Rebuilt(Working, None)
    else Rebuilt(Idle, None)
  }
}

=== FILE: text.dfy ===
/** Plain string helpers: splitting at a separator character and joining. */
module Text {

  /** `s.split(sep)` for a one-character separator: always at least one piece. */
  function Split(s: string, sep: char): (parts: seq<string>)
    ensures |parts| >= 1
    decreases |s|
  {
    if |s| == 0 then [""]
    else if s[0] == sep then [""] + Split(s[1..], sep)
    else
      var rest := Split(s[1..], sep);
      [[s[0]] + rest[0]] + rest[1..]
  }

  /** `parts.join(sep)`. */
  function Join(parts: seq<string>, sep: string): string
    decreases |parts|
  {
    if |parts| == 0 then ""
    else if |parts| == 1 then parts[0]
    else parts[0] + sep + Join(parts[1..], sep)
  }

  /** A string without the separator is a single piece. */
  lemma {:induction false} SplitWithoutSeparator(a: string, sep: char)
    requires sep !in a
    ensures Split(a, sep) == [a]
    decreases |a|
  {
    if |a| > 0 {
      assert a[0] in a;
      assert forall k | 0 <= k < |a[1..]| :: a[1..][k] == a[k + 1];
      SplitWithoutSeparator(a[1..], sep);
      assert [a[0]] + a[1..] == a;
    }
  }

  /** Splitting `a + sep + b` where `a` has no separator yields `a` followed by the pieces of `b`. */
  lemma {:induction false} SplitAtFirst(a: string, sep: char, b: string)
    requires sep !in a
    ensures Split(a + [sep] + b, sep) == [a] + Split(b, sep)
    decreases |a|
  {
    var s := a + [sep] + b;
    if |a| == 0 {
      assert s[1..] == b;
    } else {
      assert a[0] in a;
      assert s[1..] == a[1..] + [sep] + b;
      assert forall k | 0 <= k < |a[1..]| :: a[1..][k] == a[k + 1];
      SplitAtFirst(a[1..], sep, b);
      assert [a[0]] + a[1..] == a;
    }
  }
}

=== FILE: time_format.dfy ===
/**
 * `formatTime(ms)`: a millisecond count shown as `HH:MM:SS`, and its inverse.
 * Hours are not wrapped at 24 and get a third digit from 100 on; a missing,
 * not-a-number or negative count shows as `00:00:00`.
 */
module TimeFormat {
  import opened JsValues
  import opened Text

  predicate IsDigit(c: char) {
    '0' <= c <= '9'
  }

  predicate AllDigits(s: string) {
    forall i :: 0 <= i < |s| ==> IsDigit(s[i])
  }

  function DigitChar(d: nat): (c: char)
    requires d < 10
    ensures IsDigit(c) && c as int - '0' as int == d
  {
    ('0' as int + d) as char
  }

  /** The number a string of decimal digits denotes (leading zeros allowed). */
  function ValueOf(s: string): nat
    requires AllDigits(s)
  {
    if s == [] then 0
    else ValueOf(s[..|s| - 1]) * 10 + (s[|s| - 1] as int - '0' as int)
  }

  /** `String(n)` for a non-negative integer: decimal digits, no leading zero. */
  function Decimal(n: nat): (s: string)
    ensures 1 <= |s| && AllDigits(s) && ValueOf(s) == n
    ensures s[0] == '0' ==> n == 0
    ensures 10 <= n < 100 ==> |s| == 2
  {
    if n < 10 then [DigitChar(n)]
    else
      var s := Decimal(n / 10) + [DigitChar(n % 10)];
      assert s[..|s| - 1] == Decimal(n / 10);
      s
  }

  /** `unit < 10 ? '0' + unit : unit`: at least two digits. */
  function Pad(n: nat): (s: string)
    ensures 2 <= |s| && AllDigits(s) && ValueOf(s) == n
    ensures n < 100 ==> |s| == 2
  {
    if n < 10 then
      var s := "0" + Decimal(n);
      assert s[..1] == "0" && ValueOf(s[..1]) == ValueOf("") * 10 + 0;
      s
    else Decimal(n)
  }

  /** `formatTime(ms)`; `None` stands for `null`, `undefined` and `NaN`. */
  function FormatTime(ms: Option<int>): (r: string)
    ensures ms.None? || ms.value < 0 ==> r == "00:00:00"
    ensures ms.Some? && 0 <= ms.value < 1000 ==> r == "00:00:00"
  {
    if ms.None? || ms.value < 0 then "00:00:00"
    else
      var total := ms.value / 1000;
      Pad(total / 3600) + ":" + Pad(total % 3600 / 60) + ":" + Pad(total % 60)
  }

  /** Reads `H…H:MM:SS` back as a number of whole seconds; `None` for anything else. */
  function ParseClock(r: string): (t: Option<nat>)
  {
    var f := Split(r, ':');
    if |f| == 3 && AllDigits(f[0]) && AllDigits(f[1]) && AllDigits(f[2])
       && |f[0]| >= 2 && |f[1]| == 2 && |f[2]| == 2
       && ValueOf(f[1]) < 60 && ValueOf(f[2]) < 60
    then Some(ValueOf(f[0]) * 3600 + ValueOf(f[1]) * 60 + ValueOf(f[2]))
    else None
  }

  lemma DigitsHaveNoColon(s: string)
    requires AllDigits(s)
    ensures ':' !in s && ';' !in s
  {
  }

  /** Division by 60 is determined by any quotient and remainder that recompose `x`. */
  lemma DivModSixty(x: int, q: int, r: int)
    requires 0 <= r < 60 && x == 60 * q + r
    ensures x / 60 == q && x % 60 == r
  {
    var q', r' := x / 60, x % 60;
    assert x == 60 * q' + r' && 0 <= r' < 60;
  }

  /** Hours, minutes and seconds recompose the total number of seconds. */
  lemma ClockArithmetic(total: nat)
    ensures total % 3600 / 60 < 60 && total % 60 < 60
    ensures (total / 3600) * 3600 + (total % 3600 / 60) * 60 + total % 60 == total
  {
    var h, r := total / 3600, total % 3600;
    assert total == 3600 * h + r && 0 <= r < 3600;
    var m, s := r / 60, r % 60;
    assert r == 60 * m + s && 0 <= s < 60;
    assert m < 60;
    DivModSixty(total, 60 * h + m, s);
  }

  /**
   * `formatTime` loses only the milliseconds: its text always reads back as
   * `ms / 1000` whole seconds, with two-digit minutes and seconds below 60 and
   * hours of at least two digits.
   */
  lemma FormatTimeRoundTrip(ms: int)
    requires ms >= 0
    ensures ParseClock(FormatTime(Some(ms))) == Some(ms / 1000)
  {
    var total := ms / 1000;
    var h, m, s := Pad(total / 3600), Pad(total % 3600 / 60), Pad(total % 60);
    ClockArithmetic(total);
    DigitsHaveNoColon(h);
    DigitsHaveNoColon(m);
    DigitsHaveNoColon(s);
    assert FormatTime(Some(ms)) == h + [':'] + (m + [':'] + s);
    SplitAtFirst(h, ':', m + [':'] + s);
    SplitAtFirst(m, ':', s);
    SplitWithoutSeparator(s, ':');
    assert Split(FormatTime(Some(ms)), ':') == [h, m, s];
  }

  /** The clamped output is the reading of zero seconds. */
  lemma FormatTimeClamped(ms: Option<int>)
    requires ms.None? || ms.value < 0
    ensures ParseClock(FormatTime(ms)) == Some(0)
  {
    FormatTimeRoundTrip(0);
  }

  /** What any integer count reads back as once formatted. */
  lemma FormatTimeReading(ms: int)
    ensures ParseClock(FormatTime(Some(ms))) == Some(if ms < 0 then 0 else ms / 1000)
  {
    if ms < 0 {
      FormatTimeClamped(Some(ms));
    } else {
      FormatTimeRoundTrip(ms);
    }
  }

  /** Formatted times hold only digits and colons, so never a `;`. */
  lemma FormatTimeHasNoSemicolon(ms: Option<int>)
    ensures ';' !in FormatTime(ms)
  {
    if ms.Some? && ms.value >= 0 {
      var total := ms.value / 1000;
      var h, m, s := Pad(total / 3600), Pad(total % 3600 / 60), Pad(total % 60);
      DigitsHaveNoColon(h);
      DigitsHaveNoColon(m);
      DigitsHaveNoColon(s);
      assert FormatTime(ms) == h + ":" + m + ":" + s;
    }
  }
}

=== FILE: tracker.dfy ===
/**
 * The clock page's module variables as an object whose button handlers update
 * them in place. Each handler is one atomic step, the current time is a
 * parameter, and a save returns the record it hands to the backend.
 */
module Tracker {
  import opened JsValues
  import opened Journal
  import opened StatusRebuild
  import Clock

  class WorkdayClock {
    var status: Status
    var workStartTime: Option<int>
    var workEndTime: Option<int>
    var breakStartTime: Option<int>
    var totalBreakDuration: int
    var currentDayLog: seq<LogEntry>
    var currentWorkdayData: Option<WorkdayRecord>
    var loggedInUserDni: Option<string>
    var loggedInUserRole: Option<string>

    /** The variables as one value. */
    function Snapshot(): Clock.Session
      reads this
    {
      Clock.Session(status, workStartTime, workEndTime, breakStartTime, totalBreakDuration,
                    currentDayLog, currentWorkdayData, loggedInUserDni, loggedInUserRole)
    }

    /** The values the page starts with. */
    constructor ()
      ensures Snapshot() == Clock.Initial()
      ensures status == Idle && currentDayLog == [] && totalBreakDuration == 0
    {
      status := Idle;
      workStartTime := None;
      workEndTime := None;
      breakStartTime := None;
      totalBreakDuration := 0;
      currentDayLog := [];
      currentWorkdayData := None;
      loggedInUserDni := None;
      loggedInUserRole := None;
    }

    /** `saveCurrentWorkdayData`: the body it would post; nothing without a record or a user. */
    method SaveCurrentWorkdayData() returns (sent: Option<Payload>)
      ensures sent.Some? <==> currentWorkdayData.Some? && TruthyText(loggedInUserDni)
      ensures sent.Some? ==>
        && sent.value.date == currentWorkdayData.value.date
        && sent.value.startTime == workStartTime && sent.value.endTime == workEndTime
        && sent.value.totalBreakDuration == totalBreakDuration && sent.value.events == currentDayLog
      ensures sent == Clock.SaveRequest(Snapshot())
    {
      sent := None;
      if currentWorkdayData.Some? && TruthyText(loggedInUserDni) {
        sent := Some(Payload(currentWorkdayData.value.date, workStartTime, workEndTime,
                             totalBreakDuration, currentDayLog));
      }
    }

    /** `addLogEntry`: push the entry, update the day's record, save. */
    method AddLogEntry(event: string, time: int, duration: Option<int>) returns (sent: Option<Payload>)
      modifies this
      ensures Snapshot() == Clock.AddLogEntry(old(Snapshot()), event, time, duration).after
      ensures sent == Clock.AddLogEntry(old(Snapshot()), event, time, duration).sent
      ensures currentDayLog == old(currentDayLog) + [LogEntry(event, time, duration)]
    {
      currentDayLog := currentDayLog + [LogEntry(event, time, duration)];
      sent := None;
      if currentWorkdayData.Some? {
        var w := currentWorkdayData.value.(userDni := loggedInUserDni, events := Some(currentDayLog));
        if event == WorkStarted {
          w := w.(startTime := Some(time));
        }
        if event == WorkEnded {
          w := w.(endTime := Some(time));
        }
        currentWorkdayData := Some(w);
        sent := SaveCurrentWorkdayData();
      }
    }

    /** The start button. */
    method Start(now: int) returns (sent: Option<Payload>)
      modifies this
      ensures Snapshot() == Clock.OnStart(old(Snapshot()), now).after
      ensures sent == Clock.OnStart(old(Snapshot()), now).sent
      ensures old(status) != Idle ==> Snapshot() == old(Snapshot()) && sent.None?
    {
      sent := None;
      if status == Idle {
        workStartTime := Some(now);
        sent := AddLogEntry(WorkStarted, now, None);
        status := Working;
      }
    }

    /** The start-break button. */
    method StartBreak(now: int) returns (sent: Option<Payload>)
      modifies this
      ensures Snapshot() == Clock.OnStartBreak(old(Snapshot()), now).after
      ensures sent == Clock.OnStartBreak(old(Snapshot()), now).sent
      ensures old(status) != Working ==> Snapshot() == old(Snapshot()) && sent.None?
    {
      sent := None;
      if status == Working {
        breakStartTime := Some(now);
        sent := AddLogEntry(BreakStarted, now, None);
        status := OnBreak;
      }
    }

    /** The end-break button: the break's length goes into the total and the log. */
    method EndBreak(now: int) returns (sent: Option<Payload>)
      modifies this
      ensures Snapshot() == Clock.OnEndBreak(old(Snapshot()), now).after
      ensures sent == Clock.OnEndBreak(old(Snapshot()), now).sent
      ensures !(old(status) == OnBreak && Truthy(old(breakStartTime))) ==> Snapshot() == old(Snapshot()) && sent.None?
      ensures old(status) == OnBreak && Truthy(old(breakStartTime)) ==>
        totalBreakDuration == old(totalBreakDuration) + (now - old(breakStartTime).value) && breakStartTime.None?
    {
      sent := None;
      if status == OnBreak && Truthy(breakStartTime) {
        var breakDuration := now - breakStartTime.value;
        totalBreakDuration := totalBreakDuration + breakDuration;
        sent := AddLogEntry(BreakEnded, now, Some(breakDuration));
        breakStartTime := None;
        status := Working;
      }
    }

    /** The end button. */
    method End(now: int) returns (sent: Option<Payload>)
      modifies this
      ensures Snapshot() == Clock.OnEnd(old(Snapshot()), now).after
      ensures sent == Clock.OnEnd(old(Snapshot()), now).sent
      ensures old(status) != Working ==> Snapshot() == old(Snapshot()) && sent.None?
    {
      sent := None;
      if status == Working {
        workEndTime := Some(now);
        sent := AddLogEntry(WorkEnded, now, None);
        status := Finished;
      }
    }

    /**
     * The reset button, its confirmation (`confirmed`) and the deletion of the
     * stored day (`deleted`): only a confirmed, successful reset changes anything.
     */
    method Reset(confirmed: bool, deleted: bool, today: string, now: int) returns (sent: Option<Payload>)
      modifies this
      ensures Snapshot() == Clock.OnReset(old(Snapshot()), confirmed, deleted, today, now).after
      ensures sent == Clock.OnReset(old(Snapshot()), confirmed, deleted, today, now).sent
    {
      sent := None;
      if status == Idle && !Truthy(workStartTime) {
        return;
      }
      if !confirmed || !deleted {
        return;
      }
      workStartTime := None;
      workEndTime := None;
      breakStartTime := None;
      totalBreakDuration := 0;
      currentDayLog := [];
      status := Idle;
      currentWorkdayData := Some(Clock.FreshRecord(today));
      sent := AddLogEntry(WorkReset, now, None);
    }

    /** `logout`: back to the values the page starts with. */
    method Logout()
      modifies this
      ensures Snapshot() == Clock.Logout(old(Snapshot()))
      ensures Snapshot() == Clock.Initial()
    {
      loggedInUserDni := None;
      loggedInUserRole := None;
      workStartTime := None;
      workEndTime := None;
      breakStartTime := None;
      totalBreakDuration := 0;
      currentDayLog := [];
      status := Idle;
      currentWorkdayData := None;
    }

    /** `loadCurrentWorkday`, given the backend's answer for today (`None`: no day or a failed request). */
    method LoadCurrentWorkday(response: Option<WorkdayRecord>, today: string)
      modifies this
      ensures Snapshot() == Clock.Load(old(Snapshot()), response, today)
    {
      if response.Some? {
        currentWorkdayData := response;
        var w := response.value;
        workStartTime := OrNull(w.startTime);
        workEndTime := OrNull(w.endTime);
        totalBreakDuration := OrZero(w.totalBreakDuration);
        currentDayLog := w.events.GetOr([]);
        if Truthy(workEndTime) {
          status := Finished;
        } else if HasOpenBreak(currentDayLog) {
          var lastBreakStart := LastBreakStart(currentDayLog);
          if lastBreakStart.Some? {
            breakStartTime := lastBreakStart;
            status := OnBreak;
          }
        } else if Truthy(workStartTime) {
          status := Working;
        } else {
          status := Idle;
        }
      } else {
        currentWorkdayData := Some(Clock.FreshRecord(today));
        status := Idle;
      }
    }

    /** The login button: on success remember the user, then load today's record. */
    method LogIn(granted: Option<Clock.Credentials>, stored: Option<WorkdayRecord>, today: string)
      modifies this
      ensures Snapshot() == Clock.LogIn(old(Snapshot()), granted, stored, today)
    {
      if granted.Some? {
        loggedInUserDni := Some(granted.value.dni);
        loggedInUserRole := Some(granted.value.role);
        LoadCurrentWorkday(stored, today);
      }
    }
  }
}
